=== FILE: README.md ===
# Sinatra todo lists, modelled in Dafny

A session holds an ordered sequence of todo lists; each list has a name and an
ordered sequence of todos, each todo a name and a `completed` flag. Positions
are the only identity: every request addresses a list (and a todo inside it)
by its index, and Ruby's index rules apply, so `-1` is the last element.

The model covers the logic inside `todo.rb`:

- **Status** (`Status`): `todos_count`, `todos_remaining_count` and
  `list_complete?`, derived and never stored.
- **Display order** (`Display`, `Selection`): `sort_lists` and `sort_todos`
  partition into open and complete items, show the open group first, keep
  input order inside each group, and yield each item with `Array#index` of
  that item, the first position holding an equal element. Lists have unique
  names, so a list's index is its own position. Todos may repeat, and
  `RepeatedTodoSharesIndex` shows two equal todos both shown with index 0.
- **Validation** (`Validation`): list names must be 1..100 characters and
  unique by exact match against every list, including the one being renamed.
  Todo names are only length-checked.
- **Store** (`Store`): every POST handler except delete-list becomes a
  function from the current lists to `Success(new lists)` or `Failure(error)`.
  A failure writes nothing, so the session keeps its lists. Delete-list
  (todo.rb:142-147) cannot fail, so `DeleteList` returns the new lists. `load_list` becomes `LoadList`, returning
  `None` where the handler redirects with the not-found notice.
- **Ruby arrays** (`RubyArray`): `[]`, `delete_at`, updating the element at
  an index in place, and `index`, with negative indices counting from the end, `[]` out of range
  giving `nil` and `delete_at` out of range doing nothing.

`Store.WellFormed` is the store invariant: list names are unique and all names
have valid length. Every request function states that a successful call keeps
it.

Ruby behaviour the model keeps:

- `load_list(-1)` returns the last list: a negative index counts from the end.
- `delete_at` at an index that denotes no list, but fits a signed 64-bit
  integer, does nothing (todo.rb:144).
- Renaming a list to its own name is refused as a duplicate (todo.rb:127);
  `RenameToOwnNameRejected` states it.

## Model

| member | source | states |
|---|---|---|
| RubyArray.At | todo.rb:65 | `lists[i]` yields an element exactly when `-size <= i < size`; a non-negative index reads from the front, a negative one from the end |
| RubyArray.DeleteAt | todo.rb:144 | `delete_at` removes exactly the addressed element and shifts later ones down; any other index leaves the array unchanged (Ruby does so for indices within the signed 64-bit range) |
| RubyArray.Put | todo.rb:135 | updating the element at an existing index in place changes that one element and no other |
| RubyArray.Index | todo.rb:32-33 | `index` answers `nil` exactly when the element is absent, otherwise the first position holding an equal element |
| RubyArray.IndexOfDistinct | todo.rb:32 | in an array without repeats `index` returns each element's own position |
| RubyArray.NegativeAlias | todo.rb:65 | index `i - size` reads and deletes the same element as index `i` |
| RubyArray.DeleteAtMultiset | todo.rb:171 | deleting an existing element removes exactly one copy of it and nothing else |
| RubyArray.DeleteLastAfterAppend | todo.rb:160 | appending then deleting index `size` or `-1` gives back the original array |
| Selection.Select | todo.rb:37 | each half of `partition` is no longer than the input; its order and contents are stated by SelectAtPositions and SelectMembers |
| Selection.SelectAtPositions | todo.rb:37 | the k-th element of a half is the input element at the k-th matching position; positions ascend and are exactly those whose element matches |
| Selection.SelectPositionsAlign | todo.rb:37 | a half has one element per matching position, the k-th being the input element at the k-th matching position |
| Selection.PositionsIncreasing | todo.rb:37 | matching positions are recorded in ascending order |
| Selection.PositionsExact | todo.rb:37 | a position is recorded iff its element gets that half's answer from the block |
| Selection.PositionsSatisfy | todo.rb:37 | every recorded position holds an element that gets that half's answer |
| Selection.SelectSatisfies | todo.rb:37 | every element of a half gets that half's answer from the block |
| Selection.SelectCount | todo.rb:30 | the two halves of a partition together are as long as the input |
| Selection.SelectPermutation | todo.rb:30 | the two halves of a partition together are a permutation of the input |
| Selection.SelectMembers | todo.rb:37 | an element is in a half iff it is in the input and the block gives that half's answer for it |
| Selection.SelectEmpty | todo.rb:26 | a half is empty iff no input element gets that half's answer |
| Selection.RepartitionHalves | todo.rb:37 | partitioning the concatenated halves again returns the same halves |
| Selection.PartitionPositions | todo.rb:30-33 | the source position of every element of the concatenated halves; each input position is used once, and two elements of the same half keep their input order |
| Status.TodosCount | todo.rb:21-23 | the todo count is the open todos plus the completed ones |
| Status.TodosRemainingCount | todo.rb:25-27 | the open count never exceeds the todo count and is 0 iff every todo is completed |
| Status.ListComplete | todo.rb:13-15 | a list is complete iff it has at least one todo and all its todos are completed, so an empty list is never complete |
| Status.RemainingCountsOpenPositions | todo.rb:25-27 | the open count equals the number of recorded open positions, a position is recorded iff its todo is open, and so the count is the size of the set of open positions |
| Validation.NameTaken | todo.rb:96 | the `any?` scan answers true iff some list has exactly this name |
| Validation.ListNameError | todo.rb:93-99 | the length error iff the length is outside 1..100; the uniqueness error iff the length is valid and some list, whichever, has exactly this name; otherwise none |
| Validation.TodoNameError | todo.rb:102-106 | an error iff the length is outside 1..100, and then the todo-length error; no uniqueness condition |
| Display.DisplayOrder | todo.rb:29-41 | the display has one row per input element; grouping, order and indices are stated by the lemmas below |
| Display.DisplayItems | todo.rb:30-33 | the displayed items are the open half followed by the complete half |
| Display.DisplayGrouped | todo.rb:32-33 | rows before the size of the open half are open, the rest complete; no complete row precedes an open one |
| Display.DisplayStable | todo.rb:30-33 | row q shows the input element at `PartitionPositions[q]`, so each input element shows once and same-group rows keep input order |
| Display.DisplayPermutation | todo.rb:30-33 | the displayed items are a permutation of the input |
| Display.DisplayIndex | todo.rb:32-33 | every yielded index is the first input position holding an element equal to the row's item |
| Display.DisplayIndexDistinct | todo.rb:32-33 | for an input without repeats the yielded index is the item's own source position, and no two rows share an index |
| Display.DisplayIdempotent | todo.rb:36-41 | sorting the displayed items again gives the same items in the same order |
| Display.SortTodos | todo.rb:36-41 | `sort_todos` yields every todo once, completed todos only after open ones, row q the todo at `PartitionPositions[q]`, each with its first-equal index |
| Display.SortLists | todo.rb:29-34 | `sort_lists` yields every list once, complete lists only after open ones, row q the list at `PartitionPositions[q]`, each with its first-equal index |
| Display.SortListsOwnIndex | todo.rb:32-33 | with unique list names each row's index is its list's own position, and no two rows share an index |
| Display.RepeatedTodoSharesIndex | todo.rb:39 | two equal open todos are both yielded with index 0 |
| Store.InitialWellFormed | todo.rb:45 | the empty lists of a fresh session satisfy the store invariant |
| Store.LoadList | todo.rb:64-70 | a list is found iff the index is within `-size...size`, and it is the list at the normalised position; otherwise not found |
| Store.CreateList | todo.rb:109-121 | creation fails iff the name's length is invalid or the name is taken, with that validation error; on success an empty list is appended and earlier lists are untouched; the store invariant is kept |
| Store.RenameList | todo.rb:124-139 | success iff the name is valid and no list, the renamed one included, has it; then only that list's name changes; a failure for a missing list reports not found; the store invariant is kept |
| Store.DeleteList | todo.rb:142-147 | an index that denotes a list removes exactly that list, one copy of it, and shifts later lists down; any other index changes nothing; the store invariant is kept |
| Store.AddTodo | todo.rb:150-164 | not found for a missing list; otherwise fails iff the text length is outside 1..100; on success one open todo is appended to that list only; the store invariant is kept |
| Store.DeleteTodo | todo.rb:167-175 | not found for a missing list; otherwise the addressed todo is removed with later todos shifted, or nothing changes for an index denoting no todo; other lists untouched |
| Store.SetTodoCompleted | todo.rb:178-188 | not found for a missing list; otherwise only the addressed todo's flag changes, its name and every other todo and list are kept |
| Store.CompleteTodos | todo.rb:195-197 | every todo becomes completed with its name, order and count kept |
| Store.CompleteAll | todo.rb:191-201 | not found for a missing list; otherwise that list's todos are all completed with names and order kept, other lists untouched, and the list is then complete iff it has a todo |
| Store.CreatedListIsLast | todo.rb:117 | a created list is found at index `size` and at index `-1` with no todos |
| Store.CreateTwiceRejected | todo.rb:96-97 | creating a second list with the same name is refused as a duplicate |
| Store.RenameToOwnNameRejected | todo.rb:127 | renaming a list to its current valid name is refused as a duplicate |
| Store.RepeatedTodoNameAccepted | todo.rb:102-106 | adding a todo whose name already exists in the list succeeds |
| Store.AddThenDeleteLast | todo.rb:160 | adding a todo then deleting index `size` or `-1` of that list restores the lists |
| Store.CompleteAllIdempotent | todo.rb:195-197 | completing all twice equals completing all once |
| Store.SetCompletedRestores | todo.rb:183-184 | setting a todo's flag and then setting it back to its former value restores the lists |
| Scenarios.HomePartition | todo.rb:37 | partitioning Milk, Eggs (done), Bread gives Milk, Bread open and Eggs completed |
| Scenarios.HomeStatus | todo.rb:13-27 | Home with Milk, Eggs (done), Bread has count 3, remaining 2 and is not complete |
| Scenarios.HomeOrder | todo.rb:36-41 | Home's todos are displayed as Milk(0), Bread(2), Eggs(1) |
| Scenarios.HomeCompleteAll | todo.rb:191-201 | completing all of Home's todos succeeds and leaves Home complete |
| Scenarios.HomeRenameRejected | todo.rb:124-139 | renaming Home to "Home" is refused as a duplicate |

## Left out

- Sinatra routing, redirects, ERB views, `configure` and `content_for` (todo.rb:1-10, todo.rb:49-61) are framework I/O. The redirect or re-render that follows a failed request is the `Failure` value; the redirect after a successful one is not modelled.
- The session itself and the one-shot `session[:error]` / `session[:success]` notices, including their texts (todo.rb:68, 95, 97, 104), are not modelled. A request reports an `Error` value instead.
- Lists and todos are Ruby hashes that the handlers change in place through a shared reference (todo.rb:135, 160, 184, 196). Here they are immutable records, and an in-place change becomes a value update of the one slot. The two agree because every list and todo is a fresh hash literal (todo.rb:117, 160), so no hash is ever held by two slots.
- Parameter parsing (`params[...]`, `String#to_i`), whitespace trimming with `String#strip`, and turning the `completed` field into a boolean (`== "true"`) are left out. Names arrive already stripped, and the flag arrives as a `bool`.
- `list_class` (todo.rb:17-19) only maps `list_complete?` to a CSS class name.
- The extra bound check in the single-list view (todo.rb:77-80) is a view route; `LoadList` already answers not found for a missing list.
- `sort_lists` and `sort_todos` yield to a block. The model returns the sequence of `(item, index)` pairs the block would receive, in order.
- Store.SetTodoCompleted: a todo index that denotes no todo raises `NoMethodError` on `nil` in Ruby. This is a precondition, not an error path.
- Store.RenameList: a valid new name with an index that denotes no list raises `NoMethodError` on `nil` in Ruby. This is a precondition, not an error path.
- Indices are unbounded integers. Ruby converts an array index to a signed 64-bit `long`, so `[]` and `delete_at` (todo.rb:65, 144, 171) raise `RangeError` for an index outside -2^63...2^63, which `String#to_i` (todo.rb:126, 143, 151, 168, 179, 192) can produce from a long digit string. At such an index `LoadList` answers not found, `DeleteList` and `DeleteTodo` change nothing, and `AddTodo`, `SetTodoCompleted`, `CompleteAll` and `RenameList` (for a name its precondition admits there) fail with `ListNotFound`, where Ruby raises instead.
- Concurrent requests on one session are not modelled. Each request is one read-modify-write.

=== FILE: display.dfy ===
/** `sort_lists` and `sort_todos`: the order in which lists and todos are shown.
    Both partition by completeness, show the open group first and the complete
    group second, keep the input order inside each group, and yield with every
    item the `Array#index` of that item in the input. Sorting builds a view; the
    stored sequence is not reordered. */
module Display {
  import opened RubyArray
  import opened Selection
  import opened TodoModel
  import opened Status

  /** Each item paired with the position `index` reports for it in `within`. */
  function Indexed<T(==)>(items: seq<T>, within: seq<T>): (r: seq<(T, nat)>)
    requires forall x :: x in items ==> x in within
    ensures |r| == |items|
    ensures forall k :: 0 <= k < |r| ==> r[k] == (items[k], Index(within, items[k]).value)
  {
    seq(|items|, k requires 0 <= k < |items| => (items[k], Index(within, items[k]).value))
  }

  /** The items of a display, without their indices. */
  function Items<T>(r: seq<(T, nat)>): (items: seq<T>)
    ensures |items| == |r|
    ensures forall k :: 0 <= k < |r| ==> items[k] == r[k].0
  {
    seq(|r|, k requires 0 <= k < |r| => r[k].0)
  }

  /** The partition both helpers share: items for which `complete` is false,
      then those for which it is true (the two `each` loops, in that order), each
      yielded with its `index` in `s`. */
  function DisplayOrder<T(==)>(s: seq<T>, complete: T -> bool): (r: seq<(T, nat)>)
    ensures |r| == |s|
  {
    SelectMembers(s, complete, false);
    SelectMembers(s, complete, true);
    SelectCount(s, complete);
    Indexed(Select(s, complete, false) + Select(s, complete, true), s)
  }

  /** The items of the display are the open half of the partition followed by the complete half. */
  lemma DisplayItems<T>(s: seq<T>, complete: T -> bool)
    ensures Items(DisplayOrder(s, complete)) == Select(s, complete, false) + Select(s, complete, true)
  {
  }

  /** Grouping: the first `|Select(s, complete, false)|` rows are the open items
      and the rest are the complete ones, so no complete item precedes an open one. */
  lemma DisplayGrouped<T>(s: seq<T>, complete: T -> bool)
    ensures |Select(s, complete, false)| <= |s|
    ensures forall q :: 0 <= q < |Select(s, complete, false)| ==> !complete(DisplayOrder(s, complete)[q].0)
    ensures forall q :: |Select(s, complete, false)| <= q < |s| ==> complete(DisplayOrder(s, complete)[q].0)
    ensures forall a, b :: 0 <= a < b < |s| && complete(DisplayOrder(s, complete)[a].0) ==>
              complete(DisplayOrder(s, complete)[b].0)
  {
    var open, done := Select(s, complete, false), Select(s, complete, true);
    var items := Items(DisplayOrder(s, complete));
    DisplayItems(s, complete);
    SelectSatisfies(s, complete, false);
    SelectSatisfies(s, complete, true);
    assert forall q :: 0 <= q < |open| ==> items[q] == open[q];
    assert forall q :: |open| <= q < |items| ==> items[q] == done[q - |open|];
  }

  /** Stability: row `q` shows the element of `s` at `PartitionPositions(s, complete)[q]`,
      a position no other row uses; two rows of the same group keep the order
      their elements have in `s`. */
  lemma DisplayStable<T>(s: seq<T>, complete: T -> bool)
    ensures forall q :: 0 <= q < |s| ==>
              DisplayOrder(s, complete)[q].0 == s[PartitionPositions(s, complete)[q]]
  {
  }

  /** The display shows every element of `s` exactly as often as `s` holds it. */
  lemma DisplayPermutation<T>(s: seq<T>, complete: T -> bool)
    ensures multiset(Items(DisplayOrder(s, complete))) == multiset(s)
  {
    SelectPermutation(s, complete);
    DisplayItems(s, complete);
  }

  /** The index yielded with each item is the first position of `s` holding an
      equal element; in particular `s[index]` is the item itself. */
  lemma DisplayIndex<T>(s: seq<T>, complete: T -> bool)
    ensures forall q :: 0 <= q < |s| ==>
              IsFirstIndex(s, DisplayOrder(s, complete)[q].0, DisplayOrder(s, complete)[q].1)
  {
    var r := DisplayOrder(s, complete);
    var items := Select(s, complete, false) + Select(s, complete, true);
    SelectMembers(s, complete, false);
    SelectMembers(s, complete, true);
    forall q | 0 <= q < |s|
      ensures IsFirstIndex(s, r[q].0, r[q].1)
    {
      assert items[q] in items;
      assert r[q] == (items[q], Index(s, items[q]).value);
    }
  }

  /** When no element of `s` repeats, the yielded index is the item's own
      position, so no two rows carry the same index. */
  lemma DisplayIndexDistinct<T>(s: seq<T>, complete: T -> bool)
    requires Distinct(s)
    ensures forall q :: 0 <= q < |s| ==> DisplayOrder(s, complete)[q].1 == PartitionPositions(s, complete)[q]
    ensures forall a, b :: 0 <= a < b < |s| ==> DisplayOrder(s, complete)[a].1 != DisplayOrder(s, complete)[b].1
  {
  }

  /** Sorting an already sorted display changes nothing: open items stay first,
      complete items last, each group in the same order. */
  lemma DisplayIdempotent<T>(s: seq<T>, complete: T -> bool)
    ensures Items(DisplayOrder(Items(DisplayOrder(s, complete)), complete))
         == Items(DisplayOrder(s, complete))
  {
    var once := Items(DisplayOrder(s, complete));
    DisplayItems(s, complete);
    DisplayItems(once, complete);
    RepartitionHalves(s, complete);
  }

  /** `sort_todos`: open todos first, then completed ones, each with its `index`. */
  function SortTodos(todos: seq<Todo>): (r: seq<(Todo, nat)>)
    ensures |r| == |todos|
    ensures multiset(Items(r)) == multiset(todos)
    ensures forall a, b :: 0 <= a < b < |r| && r[a].0.completed ==> r[b].0.completed
    ensures forall q :: 0 <= q < |r| ==> r[q].0 == todos[PartitionPositions(todos, Completed)[q]]
    ensures forall q :: 0 <= q < |r| ==> IsFirstIndex(todos, r[q].0, r[q].1)
  {
    DisplayGrouped(todos, Completed);
    DisplayStable(todos, Completed);
    DisplayPermutation(todos, Completed);
    DisplayIndex(todos, Completed);
    DisplayOrder(todos, Completed)
  }

  /** `sort_lists`: open lists first, then complete ones, each with its `index`. */
  function SortLists(lists: seq<TodoList>): (r: seq<(TodoList, nat)>)
    ensures |r| == |lists|
    ensures multiset(Items(r)) == multiset(lists)
    ensures forall a, b :: 0 <= a < b < |r| && ListComplete(r[a].0) ==> ListComplete(r[b].0)
    ensures forall q :: 0 <= q < |r| ==> r[q].0 == lists[PartitionPositions(lists, ListComplete)[q]]
    ensures forall q :: 0 <= q < |r| ==> IsFirstIndex(lists, r[q].0, r[q].1)
  {
    DisplayGrouped(lists, ListComplete);
    DisplayStable(lists, ListComplete);
    DisplayPermutation(lists, ListComplete);
    DisplayIndex(lists, ListComplete);
    DisplayOrder(lists, ListComplete)
  }

  /** List names are unique in the store, so every list is shown with its own
      position and no two rows link to the same list. */
  lemma SortListsOwnIndex(lists: seq<TodoList>)
    requires UniqueListNames(lists)
    ensures forall q :: 0 <= q < |lists| ==> SortLists(lists)[q].1 == PartitionPositions(lists, ListComplete)[q]
    ensures forall a, b :: 0 <= a < b < |lists| ==> SortLists(lists)[a].1 != SortLists(lists)[b].1
  {
  }

  /** With a repeated todo both rows carry the index of the first copy: the
      index is not the item's own position. */
  lemma RepeatedTodoSharesIndex(t: Todo)
    requires !t.completed
    ensures SortTodos([t, t]) == [(t, 0), (t, 0)]
  {
  }
}

=== FILE: results.dfy ===
/** Optional values and success/failure outcomes used throughout the model. */
module Results {

  /** A value that may be absent: Ruby's `nil` becomes `None`. */
  datatype Option<+T> = None | Some(value: T)

  /** The outcome of a request: the new list store, or the error shown to the user. */
  datatype Result<+R, +E> = Success(value: R) | Failure(error: E)
}

=== FILE: ruby_array.dfy ===
/** The few `Array` operations of Ruby the handlers rely on, and the in-place
    update of the element an index denotes, with Ruby's index rules:
    a negative index counts back from the end, and an index outside the array
    reads as `nil` (`[]`) or changes nothing (`delete_at`). Indices are
    unbounded integers; Ruby's bound to a signed 64-bit `long` is not kept. */
module RubyArray {
  import opened Results

  /** The position a Ruby index denotes in an array of length `n`. */
  function Normalize(i: int, n: nat): int
  {
    if i < 0 then i + n else i
  }

  /** Whether a Ruby index denotes an element of an array of length `n`. */
  predicate InRange(i: int, n: nat)
  {
    0 <= Normalize(i, n) < n
  }

  /** `a[i]` with one integer argument. */
  function At<T>(s: seq<T>, i: int): (r: Option<T>)
    ensures r.Some? <==> -|s| <= i < |s|
    ensures 0 <= i < |s| ==> r == Some(s[i])
    ensures -|s| <= i < 0 ==> r == Some(s[|s| + i])
  {
    if InRange(i, |s|) then Some(s[Normalize(i, |s|)]) else None
  }

  /** `a.delete_at(i)`: drop the element at `i`, or leave the array alone when there is none. */
  function DeleteAt<T>(s: seq<T>, i: int): (r: seq<T>)
    ensures !(-|s| <= i < |s|) ==> r == s
    ensures -|s| <= i < |s| ==> |r| == |s| - 1
    ensures InRange(i, |s|) ==>
              && (forall j :: 0 <= j < Normalize(i, |s|) ==> r[j] == s[j])
              && (forall j :: Normalize(i, |s|) <= j < |r| ==> r[j] == s[j + 1])
  {
    if InRange(i, |s|) then
      var k := Normalize(i, |s|);
      s[..k] + s[k + 1..]
    else
      s
  }

  /** Update the element at `i` in place: `a[i][:key] = v` or `a[i][:todos] << t`
      changes the hash `a[i]` holds, which as a value is `a` with that element
      replaced. `i` must denote an existing element. */
  function Put<T>(s: seq<T>, i: int, x: T): (r: seq<T>)
    requires InRange(i, |s|)
    ensures |r| == |s|
    ensures r[Normalize(i, |s|)] == x
    ensures forall j :: 0 <= j < |s| && j != Normalize(i, |s|) ==> r[j] == s[j]
  {
    s[Normalize(i, |s|) := x]
  }

  /** `i` is the first position of `s` that holds an element equal to `x`. */
  predicate IsFirstIndex<T(==)>(s: seq<T>, x: T, i: int)
  {
    0 <= i < |s| && s[i] == x && forall j :: 0 <= j < i ==> s[j] != x
  }

  /** `a.index(x)`: the first position holding an element `==` to `x`, or `nil`. */
  function Index<T(==)>(s: seq<T>, x: T): (r: Option<nat>)
    ensures r.Some? <==> x in s
    ensures r.Some? ==> IsFirstIndex(s, x, r.value)
  {
    if |s| == 0 then None
    else if s[0] == x then Some(0)
    else match Index(s[1..], x)
      case None => None
      case Some(i) => Some(i + 1)
  }

  /** No element occurs twice. */
  predicate Distinct<T(==)>(s: seq<T>)
  {
    forall i, j :: 0 <= i < j < |s| ==> s[i] != s[j]
  }

  /** In an array without repeated elements, `index` finds each element at its own position. */
  lemma IndexOfDistinct<T>(s: seq<T>, k: int)
    requires Distinct(s)
    requires 0 <= k < |s|
    ensures Index(s, s[k]) == Some(k)
  {
  }

  /** A Ruby index and its negative alias denote the same element. */
  lemma NegativeAlias<T>(s: seq<T>, i: int)
    requires 0 <= i < |s|
    ensures At(s, i - |s|) == At(s, i)
    ensures DeleteAt(s, i - |s|) == DeleteAt(s, i)
  {
  }

  /** Deleting an existing element removes exactly one copy of it. */
  lemma DeleteAtMultiset<T>(s: seq<T>, i: int)
    requires InRange(i, |s|)
    ensures multiset(DeleteAt(s, i)) + multiset{s[Normalize(i, |s|)]} == multiset(s)
  {
    var k := Normalize(i, |s|);
    assert s == s[..k] + [s[k]] + s[k + 1..];
  }

  /** Appending an element and then deleting the last index (either as `|s|` or
      as `-1`) gives back the original array. */
  lemma DeleteLastAfterAppend<T>(s: seq<T>, x: T)
    ensures DeleteAt(s + [x], |s|) == s
    ensures DeleteAt(s + [x], -1) == s
  {
  }
}

=== FILE: scenarios.dfy ===
/** The "Home" walk-through: a list with one completed and two open todos. */
module Scenarios {
  import opened Results
  import opened RubyArray
  import opened Selection
  import opened TodoModel
  import opened Status
  import opened Display
  import opened Store

  const Milk := Todo("Milk", false)
  const Eggs := Todo("Eggs", true)
  const Bread := Todo("Bread", false)
  const Home := TodoList("Home", [Milk, Eggs, Bread])

  /** Partitioning Home's todos by `completed` gives Milk and Bread, then Eggs. */
  lemma HomePartition()
    ensures Select(Home.todos, Completed, false) == [Milk, Bread]
    ensures Select(Home.todos, Completed, true) == [Eggs]
  {
    var s, s1, s2 := Home.todos, [Milk], [Milk, Eggs];
    assert s[..2] == s2 && s2[..1] == s1 && s1[..0] == [];
    assert Select(s1, Completed, false) == [Milk];
    assert Select(s2, Completed, false) == [Milk];
    assert Select(s1, Completed, true) == [];
    assert Select(s2, Completed, true) == [Eggs];
  }

  /** Two of three todos are open, so the list is not complete. */
  lemma HomeStatus()
    ensures TodosCount(Home) == 3
    ensures TodosRemainingCount(Home) == 2
    ensures !ListComplete(Home)
  {
    HomePartition();
  }

  /** The display shows Milk (0), Bread (2), then Eggs (1). */
  lemma HomeOrder()
    ensures SortTodos(Home.todos) == [(Milk, 0), (Bread, 2), (Eggs, 1)]
  {
    HomePartition();
    var s := Home.todos;
    var r := DisplayOrder(s, Completed);
    assert r == Indexed([Milk, Bread, Eggs], s);
    assert Index(s, Milk) == Some(0);
    assert Index(s, Bread) == Some(2);
    assert Index(s, Eggs) == Some(1);
  }

  /** Completing all of Home's todos makes it complete. */
  lemma HomeCompleteAll()
    ensures CompleteAll([Home], 0).Success?
    ensures ListComplete(CompleteAll([Home], 0).value[0])
  {
  }

  /** Renaming Home to its own name "Home" is refused as a duplicate. */
  lemma HomeRenameRejected()
    ensures RenameList([Home], 0, "Home") == Failure(ListNameTaken)
  {
  }
}

=== FILE: selection.dfy ===
/** Ruby's `Enumerable#partition`: the elements for which a block answers `true`,
    and those for which it answers `false`, each half in the original order. */
module Selection {

  /** The elements `x` of `s` with `p(x) == want`, in their order in `s`. */
  function Select<T>(s: seq<T>, p: T -> bool, want: bool): (r: seq<T>)
    ensures |r| <= |s|
    decreases |s|
  {
    if |s| == 0 then []
    else Select(s[..|s| - 1], p, want) + (if p(s[|s| - 1]) == want then [s[|s| - 1]] else [])
  }

  /** The positions `i` of `s` with `p(s[i]) == want`, in ascending order. */
  function Positions<T>(s: seq<T>, p: T -> bool, want: bool): (r: seq<nat>)
    ensures forall k :: 0 <= k < |r| ==> r[k] < |s|
    decreases |s|
  {
    if |s| == 0 then []
    else Positions(s[..|s| - 1], p, want) + (if p(s[|s| - 1]) == want then [|s| - 1] else [])
  }

  /** Every entry is smaller than every later one; the shape of the recorded
      positions, used by `PartitionPositions` and `IncreasingCard`. */
  predicate StrictlyIncreasing(r: seq<nat>)
  {
    forall a, b :: 0 <= a < b < |r| ==> r[a] < r[b]
  }

  /** Stability: the k-th selected element is the element at the k-th selected
      position, the positions ascend, and they are exactly the positions whose
      element satisfies the selection. */
  lemma {:induction false} SelectAtPositions<T>(s: seq<T>, p: T -> bool, want: bool)
    ensures |Select(s, p, want)| == |Positions(s, p, want)|
    ensures forall k :: 0 <= k < |Positions(s, p, want)| ==>
              Select(s, p, want)[k] == s[Positions(s, p, want)[k]]
    ensures StrictlyIncreasing(Positions(s, p, want))
    ensures forall i :: 0 <= i < |s| ==> (i in Positions(s, p, want) <==> p(s[i]) == want)
  {
    SelectPositionsAlign(s, p, want);
    PositionsIncreasing(s, p, want);
    PositionsExact(s, p, want);
  }

  /** An ascending sequence holds as many distinct values as it has elements. */
  lemma {:induction false} IncreasingCard(r: seq<nat>)
    requires StrictlyIncreasing(r)
    ensures |set k | 0 <= k < |r| :: r[k]| == |r|
    decreases |r|
  {
    if |r| > 0 {
      var init, last := r[..|r| - 1], r[|r| - 1];
      IncreasingCard(init);
      var si := set k | 0 <= k < |init| :: init[k];
      assert (set k | 0 <= k < |r| :: r[k]) == si + {last};
      assert last !in si;
    }
  }

  /** The k-th selected element sits at the k-th recorded position. */
  lemma {:induction false} SelectPositionsAlign<T>(s: seq<T>, p: T -> bool, want: bool)
    ensures |Select(s, p, want)| == |Positions(s, p, want)|
    ensures forall k :: 0 <= k < |Positions(s, p, want)| ==>
              Select(s, p, want)[k] == s[Positions(s, p, want)[k]]
    decreases |s|
  {
    if |s| > 0 {
      var init, last := s[..|s| - 1], s[|s| - 1];
      SelectPositionsAlign(init, p, want);
      var si, pi := Select(init, p, want), Positions(init, p, want);
      assert forall k :: 0 <= k < |pi| ==> s[pi[k]] == init[pi[k]];
      if p(last) == want {
        assert Select(s, p, want) == si + [last];
        assert Positions(s, p, want) == pi + [|s| - 1];
      } else {
        assert Select(s, p, want) == si;
        assert Positions(s, p, want) == pi;
      }
    }
  }

  /** The recorded positions ascend. */
  lemma {:induction false} PositionsIncreasing<T>(s: seq<T>, p: T -> bool, want: bool)
    ensures StrictlyIncreasing(Positions(s, p, want))
    decreases |s|
  {
    if |s| > 0 {
      var init, last := s[..|s| - 1], s[|s| - 1];
      PositionsIncreasing(init, p, want);
      var pi := Positions(init, p, want);
      if p(last) == want {
        assert Positions(s, p, want) == pi + [|s| - 1];
      } else {
        assert Positions(s, p, want) == pi;
      }
    }
  }

  /** The recorded positions are exactly those whose element satisfies the selection. */
  lemma {:induction false} PositionsExact<T>(s: seq<T>, p: T -> bool, want: bool)
    ensures forall i :: 0 <= i < |s| ==> (i in Positions(s, p, want) <==> p(s[i]) == want)
    decreases |s|
  {
    if |s| > 0 {
      var init, last := s[..|s| - 1], s[|s| - 1];
      PositionsExact(init, p, want);
      var pi := Positions(init, p, want);
      assert forall k :: 0 <= k < |pi| ==> pi[k] < |init|;
      if p(last) == want {
        assert Positions(s, p, want) == pi + [|s| - 1];
      } else {
        assert Positions(s, p, want) == pi;
      }
      assert forall i :: 0 <= i < |init| ==> init[i] == s[i];
    }
  }

  /** The two halves of a partition together are as long as `s`. */
  lemma {:induction false} SelectCount<T>(s: seq<T>, p: T -> bool)
    ensures |Select(s, p, true)| + |Select(s, p, false)| == |s|
    decreases |s|
  {
    if |s| > 0 {
      var init, last := s[..|s| - 1], s[|s| - 1];
      SelectCount(init, p);
      if p(last) {
        assert Select(s, p, true) == Select(init, p, true) + [last];
        assert Select(s, p, false) == Select(init, p, false);
      } else {
        assert Select(s, p, true) == Select(init, p, true);
        assert Select(s, p, false) == Select(init, p, false) + [last];
      }
    }
  }

  /** The two halves of a partition together hold exactly the elements of `s`. */
  lemma {:induction false} SelectPermutation<T>(s: seq<T>, p: T -> bool)
    ensures multiset(Select(s, p, true)) + multiset(Select(s, p, false)) == multiset(s)
    decreases |s|
  {
    if |s| > 0 {
      var init, last := s[..|s| - 1], s[|s| - 1];
      SelectPermutation(init, p);
      assert s == init + [last];
    }
  }

  /** Every selected element comes from `s` and satisfies the selection; every
      element of `s` that satisfies it is selected. */
  lemma {:induction false} SelectMembers<T>(s: seq<T>, p: T -> bool, want: bool)
    ensures forall x :: x in Select(s, p, want) <==> x in s && p(x) == want
  {
    SelectAtPositions(s, p, want);
    var r, ps := Select(s, p, want), Positions(s, p, want);
    forall x | x in r
      ensures x in s && p(x) == want
    {
      var k :| 0 <= k < |r| && r[k] == x;
      assert s[ps[k]] == x && ps[k] in ps;
    }
    forall x | x in s && p(x) == want
      ensures x in r
    {
      var i :| 0 <= i < |s| && s[i] == x;
      assert i in ps;
      var k :| 0 <= k < |ps| && ps[k] == i;
      assert r[k] == x;
    }
  }

  /** Every selected element satisfies the selection. */
  lemma {:induction false} SelectSatisfies<T>(s: seq<T>, p: T -> bool, want: bool)
    ensures forall k :: 0 <= k < |Select(s, p, want)| ==> p(Select(s, p, want)[k]) == want
  {
    SelectPositionsAlign(s, p, want);
    PositionsSatisfy(s, p, want);
  }

  /** Nothing is selected exactly when no element satisfies the selection. */
  lemma {:induction false} SelectEmpty<T>(s: seq<T>, p: T -> bool, want: bool)
    ensures |Select(s, p, want)| == 0 <==> forall i :: 0 <= i < |s| ==> p(s[i]) != want
  {
    SelectAtPositions(s, p, want);
    var ps := Positions(s, p, want);
    if |ps| > 0 {
      assert ps[0] in ps;
    }
  }

  /** Selection from a sequence whose every element satisfies it returns the whole sequence. */
  lemma {:induction false} SelectAll<T>(s: seq<T>, p: T -> bool, want: bool)
    requires forall i :: 0 <= i < |s| ==> p(s[i]) == want
    ensures Select(s, p, want) == s
    decreases |s|
  {
    if |s| > 0 {
      var init := s[..|s| - 1];
      SelectAll(init, p, want);
      assert s == init + [s[|s| - 1]];
    }
  }

  /** Selection distributes over concatenation. */
  lemma {:induction false} SelectAppend<T>(a: seq<T>, b: seq<T>, p: T -> bool, want: bool)
    ensures Select(a + b, p, want) == Select(a, p, want) + Select(b, p, want)
    decreases |b|
  {
    if |b| == 0 {
      assert a + b == a;
    } else {
      var binit, last := b[..|b| - 1], b[|b| - 1];
      SelectAppend(a, binit, p, want);
      var ab := a + b;
      assert ab[..|ab| - 1] == a + binit && ab[|ab| - 1] == last;
      var tail := if p(last) == want then [last] else [];
      assert Select(ab, p, want) == Select(a + binit, p, want) + tail;
      assert Select(b, p, want) == Select(binit, p, want) + tail;
    }
  }

  /** Partitioning the concatenated halves of a partition again yields the same halves. */
  lemma RepartitionHalves<T>(s: seq<T>, p: T -> bool)
    ensures Select(Select(s, p, false) + Select(s, p, true), p, false) == Select(s, p, false)
    ensures Select(Select(s, p, false) + Select(s, p, true), p, true) == Select(s, p, true)
  {
    var open, done := Select(s, p, false), Select(s, p, true);
    SelectSatisfies(s, p, false);
    SelectSatisfies(s, p, true);
    SelectAll(open, p, false);
    SelectAll(done, p, true);
    SelectEmpty(open, p, true);
    SelectEmpty(done, p, false);
    SelectAppend(open, done, p, false);
    SelectAppend(open, done, p, true);
  }

  /** Where each element of the partition `Select(s, p, false) + Select(s, p, true)`
      comes from in `s`: every position of `s` exactly once, and two elements of
      the same half in the order `s` has them. */
  function PartitionPositions<T>(s: seq<T>, p: T -> bool): (r: seq<nat>)
    ensures |r| == |s| == |Select(s, p, false) + Select(s, p, true)|
    ensures forall k :: 0 <= k < |r| ==> r[k] < |s|
    ensures forall a, b :: 0 <= a < b < |r| ==> r[a] != r[b]
    ensures forall a, b :: 0 <= a < b < |r| && p(s[r[a]]) == p(s[r[b]]) ==> r[a] < r[b]
    ensures forall k :: 0 <= k < |r| ==> (Select(s, p, false) + Select(s, p, true))[k] == s[r[k]]
  {
    PartitionPositionsMap(s, p);
    PartitionPositionsOrder(s, p);
    Positions(s, p, false) + Positions(s, p, true)
  }

  /** Every recorded position holds an element that satisfies the selection. */
  lemma {:induction false} PositionsSatisfy<T>(s: seq<T>, p: T -> bool, want: bool)
    ensures forall k :: 0 <= k < |Positions(s, p, want)| ==> p(s[Positions(s, p, want)[k]]) == want
  {
    PositionsExact(s, p, want);
    var ps := Positions(s, p, want);
    assert forall k :: 0 <= k < |ps| ==> ps[k] in ps;
  }

  /** Serves `PartitionPositions`: the concatenated positions cover the
      concatenated halves one to one, each pointing at the element shown. */
  lemma PartitionPositionsMap<T>(s: seq<T>, p: T -> bool)
    ensures |Positions(s, p, false) + Positions(s, p, true)| == |s|
    ensures |Select(s, p, false) + Select(s, p, true)| == |s|
    ensures forall k :: 0 <= k < |s| ==>
              (Positions(s, p, false) + Positions(s, p, true))[k] < |s| &&
              (Select(s, p, false) + Select(s, p, true))[k] == s[(Positions(s, p, false) + Positions(s, p, true))[k]]
  {
    SelectAtPositions(s, p, false);
    SelectAtPositions(s, p, true);
    SelectCount(s, p);
  }

  /** Serves `PartitionPositions`: the concatenated positions are in range,
      pairwise distinct, and ascend within each half. */
  lemma PartitionPositionsOrder<T>(s: seq<T>, p: T -> bool)
    ensures var r := Positions(s, p, false) + Positions(s, p, true);
      forall a, b :: 0 <= a < b < |r| ==>
        r[a] < |s| && r[b] < |s| && r[a] != r[b] && (p(s[r[a]]) == p(s[r[b]]) ==> r[a] < r[b])
  {
    PositionsIncreasing(s, p, false);
    PositionsIncreasing(s, p, true);
    PositionsSatisfy(s, p, false);
    PositionsSatisfy(s, p, true);
    var open, done := Positions(s, p, false), Positions(s, p, true);
    var r := open + done;
    forall a, b | 0 <= a < b < |r|
      ensures r[a] < |s| && r[b] < |s| && r[a] != r[b] && (p(s[r[a]]) == p(s[r[b]]) ==> r[a] < r[b])
    {
      if b < |open| {
        assert r[a] == open[a] && r[b] == open[b];
      } else if a >= |open| {
        assert r[a] == done[a - |open|] && r[b] == done[b - |open|];
      } else {
        assert r[a] == open[a] && r[b] == done[b - |open|];
      }
    }
  }
}

=== FILE: status.dfy ===
/** The derived status of a list: how many todos it has, how many are still
    open, and whether it counts as complete. Nothing here is stored. */
module Status {
  import opened TodoModel
  import opened Selection

  /** `todos_count`: every todo is either still open or completed. */
  function TodosCount(list: TodoList): (r: nat)
    ensures r == |Select(list.todos, Completed, false)| + |Select(list.todos, Completed, true)|
  {
    SelectCount(list.todos, Completed);
    |list.todos|
  }

  /** `todos_remaining_count`: the size of the selection of todos that are not completed. */
  function TodosRemainingCount(list: TodoList): (r: nat)
    ensures r <= |list.todos|
    ensures r == 0 <==> forall i :: 0 <= i < |list.todos| ==> list.todos[i].completed
  {
    SelectEmpty(list.todos, Completed, false);
    |Select(list.todos, Completed, false)|
  }

  /** `list_complete?`: at least one todo, and none left open. An empty list is
      never complete. */
  predicate ListComplete(list: TodoList)
    ensures ListComplete(list) <==>
              |list.todos| > 0 && forall i :: 0 <= i < |list.todos| ==> list.todos[i].completed
  {
    TodosCount(list) > 0 && TodosRemainingCount(list) == 0
  }

  /** The remaining count is the number of positions holding an open todo. */
  lemma {:induction false} RemainingCountsOpenPositions(list: TodoList)
    ensures TodosRemainingCount(list) == |Positions(list.todos, Completed, false)|
    ensures forall i :: 0 <= i < |list.todos| ==>
              (i in Positions(list.todos, Completed, false) <==> !list.todos[i].completed)
    ensures TodosRemainingCount(list) == |set i | 0 <= i < |list.todos| && !list.todos[i].completed|
  {
    var ps := Positions(list.todos, Completed, false);
    SelectAtPositions(list.todos, Completed, false);
    IncreasingCard(ps);
    assert (set i | 0 <= i < |list.todos| && !list.todos[i].completed) == (set k | 0 <= k < |ps| :: ps[k]);
  }
}

=== FILE: store.dfy ===
/** The session's sequence of lists and the requests that change it. Every
    request handler except list deletion reduces to one function from the
    current lists to the lists it leaves behind (`Success`) or the error it
    reports (`Failure`); a failed request writes nothing, so the session keeps
    the lists it had. List deletion cannot fail and returns the new lists
    directly. A list is addressed by a Ruby index (negative counts from the
    end). */
module Store {
  import opened Results
  import opened RubyArray
  import opened TodoModel
  import opened Validation
  import opened Status

  /** What every successful request keeps true of the session's lists: list
      names are unique, and every list and todo name passed validation. */
  predicate WellFormed(lists: seq<TodoList>)
  {
    && UniqueListNames(lists)
    && (forall i :: 0 <= i < |lists| ==> ValidLength(lists[i].name))
    && (forall i, j :: 0 <= i < |lists| && 0 <= j < |lists[i].todos| ==> ValidLength(lists[i].todos[j].name))
  }

  /** The lists of a fresh session (`session[:lists] ||= []`). */
  const Initial: seq<TodoList> := []

  /** A fresh session starts in a state the store invariant admits. */
  lemma InitialWellFormed()
    ensures WellFormed(Initial)
  {
  }

  /** `load_list`: the list a Ruby index denotes; `None` is the redirect to the
      overview with the not-found notice. */
  function LoadList(lists: seq<TodoList>, index: int): (r: Option<TodoList>)
    ensures r.Some? <==> -|lists| <= index < |lists|
    ensures r.Some? ==> r.value in lists && r.value == lists[Normalize(index, |lists|)]
  {
    At(lists, index)
  }

  /** POST /lists: validate the name, then append an empty list. */
  function CreateList(lists: seq<TodoList>, name: string): (r: Result<seq<TodoList>, Error>)
    ensures r.Failure? <==> !ValidLength(name) || exists i :: 0 <= i < |lists| && lists[i].name == name
    ensures r.Failure? ==> ListNameError(name, lists) == Some(r.error)
    ensures r.Success? ==>
              && |r.value| == |lists| + 1
              && r.value[..|lists|] == lists
              && r.value[|lists|] == TodoList(name, [])
    ensures r.Success? && WellFormed(lists) ==> WellFormed(r.value)
  {
    match ListNameError(name, lists)
    case Some(e) => Failure(e)
    case None => Success(lists + [TodoList(name, [])])
  }

  /** POST /lists/:index: validate the new name against every list (the one
      being renamed included), then overwrite that list's name. When validation
      fails the handler reloads the list, and a missing list turns the notice
      into the not-found one. Writing the name of a missing list raises in
      Ruby, so a caller with a valid name must address an existing list. */
  function RenameList(lists: seq<TodoList>, index: int, name: string): (r: Result<seq<TodoList>, Error>)
    requires ListNameError(name, lists).None? ==> InRange(index, |lists|)
    ensures r.Success? <==> ValidLength(name) && forall i :: 0 <= i < |lists| ==> lists[i].name != name
    ensures r.Failure? && LoadList(lists, index).None? ==> r.error == ListNotFound
    ensures r.Failure? && LoadList(lists, index).Some? ==> ListNameError(name, lists) == Some(r.error)
    ensures r.Success? ==>
              var k := Normalize(index, |lists|);
              && |r.value| == |lists|
              && r.value[k] == TodoList(name, lists[k].todos)
              && forall j :: 0 <= j < |lists| && j != k ==> r.value[j] == lists[j]
    ensures r.Success? && WellFormed(lists) ==> WellFormed(r.value)
  {
    match ListNameError(name, lists)
    case Some(e) => if LoadList(lists, index).None? then Failure(ListNotFound) else Failure(e)
    case None =>
      var k := Normalize(index, |lists|);
      Success(Put(lists, index, lists[k].(name := name)))
  }

  /** POST /lists/:index/destroy: `delete_at`, which ignores an index that
      denotes no list. */
  function DeleteList(lists: seq<TodoList>, index: int): (r: seq<TodoList>)
    ensures !(-|lists| <= index < |lists|) ==> r == lists
    ensures -|lists| <= index < |lists| ==>
              var k := Normalize(index, |lists|);
              && |r| == |lists| - 1
              && (forall j :: 0 <= j < k ==> r[j] == lists[j])
              && (forall j :: k <= j < |r| ==> r[j] == lists[j + 1])
    ensures -|lists| <= index < |lists| ==>
              multiset(r) + multiset{lists[Normalize(index, |lists|)]} == multiset(lists)
    ensures WellFormed(lists) ==> WellFormed(r)
  {
    if InRange(index, |lists|) then
      DeleteAtMultiset(lists, index);
      DeleteAt(lists, index)
    else
      DeleteAt(lists, index)
  }

  /** POST /lists/:list_index/todos: find the list, validate the text, then
      append an open todo to that list. */
  function AddTodo(lists: seq<TodoList>, index: int, name: string): (r: Result<seq<TodoList>, Error>)
    ensures LoadList(lists, index).None? ==> r == Failure(ListNotFound)
    ensures LoadList(lists, index).Some? ==> (r.Failure? <==> !ValidLength(name))
    ensures LoadList(lists, index).Some? && r.Failure? ==> r.error == TodoNameLength
    ensures r.Success? ==>
              var k := Normalize(index, |lists|);
              && |r.value| == |lists|
              && r.value[k].name == lists[k].name
              && r.value[k].todos == lists[k].todos + [Todo(name, false)]
              && forall j :: 0 <= j < |lists| && j != k ==> r.value[j] == lists[j]
    ensures r.Success? && WellFormed(lists) ==> WellFormed(r.value)
  {
    match LoadList(lists, index)
    case None => Failure(ListNotFound)
    case Some(list) =>
      match TodoNameError(name)
      case Some(e) => Failure(e)
      case None => Success(Put(lists, index, list.(todos := list.todos + [Todo(name, false)])))
  }

  /** POST /lists/:list_index/todos/:todo_index/destroy: find the list, then
      `delete_at` on its todos, which ignores an index that denotes no todo. */
  function DeleteTodo(lists: seq<TodoList>, index: int, todoIndex: int): (r: Result<seq<TodoList>, Error>)
    ensures r.Failure? <==> LoadList(lists, index).None?
    ensures r.Failure? ==> r.error == ListNotFound
    ensures r.Success? ==>
              var k := Normalize(index, |lists|);
              var todos := lists[k].todos;
              && |r.value| == |lists|
              && r.value[k].name == lists[k].name
              && (!(-|todos| <= todoIndex < |todos|) ==> r.value[k].todos == todos)
              && (-|todos| <= todoIndex < |todos| ==>
                    var t := Normalize(todoIndex, |todos|);
                    && |r.value[k].todos| == |todos| - 1
                    && (forall j :: 0 <= j < t ==> r.value[k].todos[j] == todos[j])
                    && (forall j :: t <= j < |todos| - 1 ==> r.value[k].todos[j] == todos[j + 1]))
              && forall j :: 0 <= j < |lists| && j != k ==> r.value[j] == lists[j]
    ensures r.Success? && WellFormed(lists) ==> WellFormed(r.value)
  {
    match LoadList(lists, index)
    case None => Failure(ListNotFound)
    case Some(list) => Success(Put(lists, index, list.(todos := DeleteAt(list.todos, todoIndex))))
  }

  /** POST /lists/:list_index/todos/:todo_index: find the list, then set the
      `completed` flag of one todo. Assigning into a missing todo raises in
      Ruby, so the todo index must denote a todo of a list that exists. */
  function SetTodoCompleted(lists: seq<TodoList>, index: int, todoIndex: int, completed: bool)
    : (r: Result<seq<TodoList>, Error>)
    requires LoadList(lists, index).Some? ==> InRange(todoIndex, |LoadList(lists, index).value.todos|)
    ensures r.Failure? <==> LoadList(lists, index).None?
    ensures r.Failure? ==> r.error == ListNotFound
    ensures r.Success? ==>
              var k := Normalize(index, |lists|);
              var todos := lists[k].todos;
              var t := Normalize(todoIndex, |todos|);
              && |r.value| == |lists|
              && r.value[k].name == lists[k].name
              && |r.value[k].todos| == |todos|
              && r.value[k].todos[t] == Todo(todos[t].name, completed)
              && (forall j :: 0 <= j < |todos| && j != t ==> r.value[k].todos[j] == todos[j])
              && forall j :: 0 <= j < |lists| && j != k ==> r.value[j] == lists[j]
    ensures r.Success? && WellFormed(lists) ==> WellFormed(r.value)
  {
    match LoadList(lists, index)
    case None => Failure(ListNotFound)
    case Some(list) =>
      var t := Normalize(todoIndex, |list.todos|);
      Success(Put(lists, index, list.(todos := Put(list.todos, todoIndex, list.todos[t].(completed := completed)))))
  }

  /** The `each` loop of complete-all: every todo marked completed. */
  function CompleteTodos(todos: seq<Todo>): (r: seq<Todo>)
    ensures |r| == |todos|
    ensures forall j :: 0 <= j < |r| ==> r[j] == Todo(todos[j].name, true)
  {
    if |todos| == 0 then []
    else [todos[0].(completed := true)] + CompleteTodos(todos[1..])
  }

  /** POST /lists/:list_index/complete_all: find the list, then mark each of its todos completed. */
  function CompleteAll(lists: seq<TodoList>, index: int): (r: Result<seq<TodoList>, Error>)
    ensures r.Failure? <==> LoadList(lists, index).None?
    ensures r.Failure? ==> r.error == ListNotFound
    ensures r.Success? ==>
              var k := Normalize(index, |lists|);
              && |r.value| == |lists|
              && r.value[k].name == lists[k].name
              && |r.value[k].todos| == |lists[k].todos|
              && (forall j :: 0 <= j < |lists[k].todos| ==>
                    r.value[k].todos[j] == Todo(lists[k].todos[j].name, true))
              && (ListComplete(r.value[k]) <==> |lists[k].todos| > 0)
              && forall j :: 0 <= j < |lists| && j != k ==> r.value[j] == lists[j]
    ensures r.Success? && WellFormed(lists) ==> WellFormed(r.value)
  {
    match LoadList(lists, index)
    case None => Failure(ListNotFound)
    case Some(list) => Success(Put(lists, index, list.(todos := CompleteTodos(list.todos))))
  }

  /** A created list is found last, both at index `|lists|` and at index `-1`, with no todos. */
  lemma CreatedListIsLast(lists: seq<TodoList>, name: string)
    requires CreateList(lists, name).Success?
    ensures LoadList(CreateList(lists, name).value, |lists|) == Some(TodoList(name, []))
    ensures LoadList(CreateList(lists, name).value, -1) == Some(TodoList(name, []))
  {
  }

  /** Creating a list a second time under the same name is refused as a duplicate. */
  lemma CreateTwiceRejected(lists: seq<TodoList>, name: string)
    requires CreateList(lists, name).Success?
    ensures CreateList(CreateList(lists, name).value, name) == Failure(ListNameTaken)
  {
  }

  /** Renaming a list to the name it already has is refused: the uniqueness
      check sees the list itself. */
  lemma RenameToOwnNameRejected(lists: seq<TodoList>, index: int)
    requires InRange(index, |lists|)
    requires ValidLength(lists[Normalize(index, |lists|)].name)
    ensures RenameList(lists, index, lists[Normalize(index, |lists|)].name) == Failure(ListNameTaken)
  {
  }

  /** Todo names need not be unique: an existing todo's name can be added again. */
  lemma RepeatedTodoNameAccepted(lists: seq<TodoList>, index: int, t: int)
    requires InRange(index, |lists|)
    requires 0 <= t < |lists[Normalize(index, |lists|)].todos|
    requires ValidLength(lists[Normalize(index, |lists|)].todos[t].name)
    ensures AddTodo(lists, index, lists[Normalize(index, |lists|)].todos[t].name).Success?
  {
  }

  /** Adding a todo and then deleting the last todo of the same list, by index
      `|todos|` or by index `-1`, gives back the original lists. */
  lemma AddThenDeleteLast(lists: seq<TodoList>, index: int, name: string)
    requires AddTodo(lists, index, name).Success?
    ensures DeleteTodo(AddTodo(lists, index, name).value, index,
                       |lists[Normalize(index, |lists|)].todos|) == Success(lists)
    ensures DeleteTodo(AddTodo(lists, index, name).value, index, -1) == Success(lists)
  {
    var k := Normalize(index, |lists|);
    var todos := lists[k].todos;
    var after := AddTodo(lists, index, name).value;
    DeleteLastAfterAppend(todos, Todo(name, false));
    assert after[k] == TodoList(lists[k].name, todos + [Todo(name, false)]);
    var r1 := DeleteTodo(after, index, |todos|).value;
    assert r1[k] == lists[k];
    assert r1 == lists;
    var r2 := DeleteTodo(after, index, -1).value;
    assert r2[k] == lists[k];
    assert r2 == lists;
  }

  /** Completing all todos twice is the same as completing them once. */
  lemma CompleteAllIdempotent(lists: seq<TodoList>, index: int)
    requires CompleteAll(lists, index).Success?
    ensures CompleteAll(CompleteAll(lists, index).value, index) == CompleteAll(lists, index)
  {
    var once := CompleteAll(lists, index).value;
    var twice := CompleteAll(once, index).value;
    var k := Normalize(index, |lists|);
    assert twice[k] == once[k];
    assert twice == once;
  }

  /** Setting a todo's flag and then setting it back to its former value gives
      back the original lists. */
  lemma SetCompletedRestores(lists: seq<TodoList>, index: int, todoIndex: int, completed: bool)
    requires InRange(index, |lists|)
    requires InRange(todoIndex, |lists[Normalize(index, |lists|)].todos|)
    ensures var before := lists[Normalize(index, |lists|)].todos[Normalize(todoIndex, |lists[Normalize(index, |lists|)].todos|)].completed;
      var once := SetTodoCompleted(lists, index, todoIndex, completed);
      once.Success? && SetTodoCompleted(once.value, index, todoIndex, before) == Success(lists)
  {
    var k := Normalize(index, |lists|);
    var t := Normalize(todoIndex, |lists[k].todos|);
    var once := SetTodoCompleted(lists, index, todoIndex, completed).value;
    var back := SetTodoCompleted(once, index, todoIndex, lists[k].todos[t].completed).value;
    assert back[k].todos == lists[k].todos;
    assert back[k] == lists[k];
    assert back == lists;
  }
}

=== FILE: todo_model.dfy ===
/** The records a session holds: lists of todos, and the errors a request can report. */
module TodoModel {

  /** One item of a list. */
  datatype Todo = Todo(name: string, completed: bool)

  /** A named list; its position in the session's sequence is its only identity. */
  datatype TodoList = TodoList(name: string, todos: seq<Todo>)

  /** Everything a request can refuse. */
  datatype Error =
    | ListNameLength
    | ListNameTaken
    | TodoNameLength
    | ListNotFound

  /** Bounds of the accepted name lengths, in characters. */
  const MinNameLength: nat := 1
  const MaxNameLength: nat := 100

  /** No two lists share a name: the store keeps this after every successful request. */
  predicate UniqueListNames(lists: seq<TodoList>)
  {
    forall i, j :: 0 <= i < j < |lists| ==> lists[i].name != lists[j].name
  }

  /** The block `sort_todos` partitions by. */
  predicate Completed(t: Todo)
  {
    t.completed
  }
}

=== FILE: validation.dfy ===
/** The checks a name passes before it enters the store. Names arrive already
    stripped of surrounding whitespace. */
module Validation {
  import opened Results
  import opened TodoModel

  /** `(1..100).cover? name.size`. */
  predicate ValidLength(name: string)
  {
    MinNameLength <= |name| <= MaxNameLength
  }

  /** `lists.any? { |list| list[:name] == name }`, scanned front to back. */
  function NameTaken(lists: seq<TodoList>, name: string): (b: bool)
    ensures b <==> exists i :: 0 <= i < |lists| && lists[i].name == name
  {
    if |lists| == 0 then false
    else lists[0].name == name || NameTaken(lists[1..], name)
  }

  /** `error_for_list_name`: the length is checked first, then exact-match
      uniqueness against every current list. `None` means the name is accepted. */
  function ListNameError(name: string, lists: seq<TodoList>): (r: Option<Error>)
    ensures r == None <==>
              ValidLength(name) && forall i :: 0 <= i < |lists| ==> lists[i].name != name
    ensures r == Some(ListNameLength) <==> !ValidLength(name)
    ensures r == Some(ListNameTaken) <==>
              ValidLength(name) && exists i :: 0 <= i < |lists| && lists[i].name == name
    ensures r.Some? ==> r.value in {ListNameLength, ListNameTaken}
  {
    if !ValidLength(name) then Some(ListNameLength)
    else if NameTaken(lists, name) then Some(ListNameTaken)
    else None
  }

  /** `error_for_todo`: only the length is checked; todo names may repeat. */
  function TodoNameError(name: string): (r: Option<Error>)
    ensures r == None <==> ValidLength(name)
    ensures r.Some? ==> r == Some(TodoNameLength)
  {
    if !ValidLength(name) then Some(TodoNameLength) else None
  }
}
